=== FILE: README.md ===
# Class search and tutor registration, modelled in Dafny

This project models the classes controller of a tutor-matching service.
The controller has two routes.

- **Search** (`index`) takes three query filters: `week_day`, `subject` and `time`.
  It returns every class of that subject that owns a schedule slot covering the time on that weekday.
  Each class comes paired with the user (tutor) who owns it.
- **Registration** (`create`) writes three things inside one database transaction: a user, a class owned by that user, and one schedule row per schedule item.
  It commits when every step succeeds.
  On any failure it rolls back and replies with a single fixed error.

The database is modelled as three immutable tables (`users`, `classes`, `class_schedule`), each a sequence of rows.
The handlers are pure functions over that store.

Modules:

- `Wrappers`: `Option` and `Result`.
- `Store`: row types, fresh id generation, and well-formedness. Well-formed means unique keys and resolved references.
- `Search`: the filter gate, the schedule semi-join, and the inner join with `users`.
  - The semi-join keeps a class when at least one of its schedule rows matches. A class is not repeated once per matching slot.
  - The slot test is the half-open interval `from <= t < to`.
- `Registration`: the body of the transaction (`Transact`), the commit/rollback wrapper (`Create`), and `Registered`. `Registered` describes exactly which rows a successful registration adds.
- `Coherence`: registration keeps the store well formed. Searching after a registration finds the new class exactly where one of its schedule items covers the requested time.
- `Api`: both routes as store transitions. A search never changes the store. Only a successful registration does.

Parameters standing for code that is not part of this model:

- `conv: string -> Option<int>` is the `"HH:MM"` to minutes converter (`convertHourToMinutes`). Its body is not part of this model.
  - Search and registration receive the same `conv`, as in the source.
  - `None` stands for a string that does not convert to a number.
- `number: string -> Option<real>` is JavaScript's `Number`, applied to the `week_day` query string.
  - `None` stands for NaN or an infinity.
  - The model compares the stored weekday, an integer here, with this real number. A fractional query weekday therefore finds nothing in the model.
- `engine: (Db, Write) -> bool` is the storage engine's verdict on each insert and on the commit, given the transaction's working copy so far. It stands for constraint violations, I/O errors and similar failures.

Facts about the code that the model keeps:

- The create handler has no check for an empty `schedule` (ClassesController.ts:82-89). An empty schedule inserts no rows, unless the engine rejects that insert.
- Neither handler checks that a weekday lies in 0–6, that `from < to`, or that tutor fields are non-empty. Neither handler validates time strings itself; it only calls the converter.
- The filter gate tests the truthiness of query strings (line 23). The weekday `"0"` therefore passes the gate. Only an absent or empty value is missing.
- The model does not carry message strings, only the kind of reply.

## Model

| member | source | states |
|---|---|---|
| Search.Index | server/src/controllers/ClassesController.ts:20-45 | The reply is the missing-filters error iff `week_day`, `subject` or `time` is absent or empty. It is a query failure iff all three are present and the weekday or time does not convert. On success, a (class, user) pair is in the result iff the class is stored, has the subject, has a schedule row for weekday `Number(week_day)` with `from <= t < to` where `t = conv(time)`, and the user is stored with `id == class.user_id`. |
| Search.GateSkipsQuery | server/src/controllers/ClassesController.ts:23-27 | When a filter is missing, the reply is the missing-filters error whatever the store and the converters are, so no query is made. |
| Search.AnySlot | server/src/controllers/ClassesController.ts:32-39 | The existence subquery is true iff some schedule row has the class id, the weekday, and a half-open slot containing the minute. |
| Search.Owners | server/src/controllers/ClassesController.ts:41-42 | The inner join of one class with `users` yields exactly the pairs whose user is stored with `id == class.user_id`. A class with no such user yields nothing. |
| Search.Join | server/src/controllers/ClassesController.ts:31-42 | Over a given part of the classes table, a pair is returned iff its class is in that part, its user is stored and owns the class, and the class qualifies: right subject and a covering slot. |
| Search.Found | server/src/controllers/ClassesController.ts:31-42 | The query over the whole classes table returns a pair iff its class is stored, its user is stored with `id == class.user_id`, and the class has the subject and a schedule row whose `[from, to)` slot covers the minute on the weekday. |
| Search.StartMatches | server/src/controllers/ClassesController.ts:37 | A query at a slot's `from` minute finds the class (inclusive lower bound). |
| Search.EndExcluded | server/src/controllers/ClassesController.ts:38 | A query at a slot's `to` minute does not find a class whose only slot that day is this one (exclusive upper bound). |
| Search.FoundDistinct | server/src/controllers/ClassesController.ts:31-42 | With unique user and class ids, no result row is repeated, however many slots of a class match (semi-join, not join). |
| Store.NextId | server/src/controllers/ClassesController.ts:65-80 | The id handed to an inserted row is larger than every id in its table, so it is fresh. |
| Registration.ToRows | server/src/controllers/ClassesController.ts:82-87 | The schedule map succeeds iff every `from`/`to` converts. On success the i-th row belongs to the new class and carries `schedule[i].week_day`, `conv(schedule[i].from)` and `conv(schedule[i].to)`, with as many rows as items, in order. |
| Registration.Create | server/src/controllers/ClassesController.ts:61-105 | On failure the store is exactly the one the request found (rollback). On success the store gains exactly one user with the given profile, one class of the given subject and cost owned by that user, and one row per schedule item owned by that class. Old rows are untouched and new ids are fresh. Every insert and the commit were accepted by the engine. An unconvertible time always fails. All conversions plus an engine that accepts this registration's own inserts and commit always succeed. |
| Registration.Transact | server/src/controllers/ClassesController.ts:63-92 | The `try` block fails whenever some schedule time does not convert. When it reaches the commit, it has built exactly the rows `Registered` describes, and the engine accepted each insert and the commit against the working copy at that point. |
| Registration.AcceptedWritesCommit | server/src/controllers/ClassesController.ts:63-94 | When every time converts and the engine accepts the registration's own inserts and commit, the `try` block reaches the commit. |
| Coherence.RegisteredPreservesWellFormed | server/src/controllers/ClassesController.ts:65-89 | Adding the registered rows keeps ids unique in every table. Every class still references a stored user and every schedule row a stored class. |
| Coherence.CreatePreservesWellFormed | server/src/controllers/ClassesController.ts:61-99 | The create handler, whether it commits or rolls back, leaves a well-formed store well formed. |
| Coherence.OldClassQualifies | server/src/controllers/ClassesController.ts:82-89 | The new schedule rows all point at the new class, so a class that existed before qualifies after the registration iff it qualified before. |
| Coherence.NewClassQualifies | server/src/controllers/ClassesController.ts:29-40 | The new class qualifies iff its subject matches and some registered item, converted by the same `conv`, covers the minute on that weekday. |
| Coherence.SearchAfterRegistration | server/src/controllers/ClassesController.ts:31-42 | After a registration, the search finds what it found before, plus the (new class, new user) pair exactly when the subject matches and an item covers the instant. |
| Coherence.CreateThenSearch | server/src/controllers/ClassesController.ts:20-99 | Register, then search through the handlers: the new pair is in the reply iff the subject matches and an item covers the instant. Every earlier result is still there. |
| Api.Serve | server/src/controllers/ClassesController.ts:18-108 | A search leaves the store unchanged. The store changes only on a successful create, which adds exactly the registered rows. Well-formedness is preserved. |
| Api.Replay | server/src/controllers/ClassesController.ts:18-108 | Over any sequence of requests, well-formedness is preserved. The users table grows by exactly the number of successful creates. |

## Left out

- HTTP plumbing (`req`, `res.status`, `res.json`, `res.send`) and the SQL text of the query builder. The query is modelled by its meaning over in-memory sequences.
- The body of `convertHourToMinutes`. It is a parameter, because its file is not part of this model. No property of the converter is assumed; search and registration only share the same `conv`.
- Search.Index: when the weekday or time does not convert, the source's query fails and the handler, which has no `catch`, sends no reply. The model reports this as `QueryFailed`.
- Search.Index: the result order is the order of the classes table, then of the users table. SQL promises no order, so no property depends on it.
- The shape of a result row. The source flattens `classes.*` and `users.*` into one object, where the user's `id` column shadows the class's. The model keeps each row as a (class, user) pair.
- Registration.Create: a time that the converter does not map to a number is treated, as a modelling choice, as a failure of the schedule step. What the converter returns for such a string, and whether the table then rejects the row, are not part of this model.
- Registration.Create: does not model a failure to open the transaction (line 61). That call is outside the `try`, so the handler then neither rolls back nor replies.
- Registration.Create: does not model a request body whose `name`, `avatar`, `whatsapp`, `bio`, `subject` or `cost` is missing or of another type. The handler passes these fields to the inserts unchecked (lines 48-56, 65-78), where the engine may store NULL or reject the row. The `Body` datatype always carries strings and a number.
- Registration.Create: does not model a request body whose `schedule` is missing or not an array. In the source, `schedule.map` (line 82) then throws after the user and class inserts, and the handler rolls back and replies 400. The `Body` datatype always carries a sequence of items.
- ScheduleItem.weekDay is an integer. The source declares it a `number` (line 7) and stores it unchecked (line 84), so a fractional or out-of-range weekday is not represented.
- Registration.Create: the failing step is not reported. Every failure gives the same 400 reply, as in the source, which only logs the cause.
- The success path's `res.send(201).send()`. It could throw after the commit and run `rollback` on a committed transaction. The model takes the commit as the point of success.
- The error message strings, including the misspelled registration message.
- Id generation inside the database engine. New ids are one above the largest id present, or 1 for an empty table. The contracts promise only freshness.
- Concurrency and isolation between simultaneous requests, and async scheduling. Each request is modelled as one atomic transition.
- The React search page is not modelled; it sends `week_day` as one of the strings `'0'`..`'6'`.

=== FILE: api.dfy ===
/** The two routes of the classes controller seen as transitions of the
    store: a request and the store it finds give the store it leaves and
    the reply. */
module Api {
  import opened Wrappers
  import opened Store
  import opened Search
  import opened Registration
  import opened Coherence

  datatype Request =
    | SearchRequest(filters: Filters)   // handled by `index`
    | CreateRequest(body: Body)         // handled by `create`

  datatype Response =
    | SearchReply(result: Result<seq<Listing>, SearchError>)
    | CreateReply(reply: Reply)

  /** Route a request to its handler. `conv` is the shared "HH:MM" to
      minutes converter, `number` JavaScript's `Number`, `engine` the
      storage engine's verdict on each insert and on the commit. */
  function Serve(db: Db, req: Request, conv: string -> Option<int>, number: string -> Option<real>,
                 engine: (Db, Write) -> bool): (r: (Db, Response))
    ensures req.SearchRequest? ==> r.0 == db
    ensures r.1 == CreateReply(Created) ==> req.CreateRequest? && Registered(db, r.0, req.body, conv)
    ensures r.0 != db ==> r.1 == CreateReply(Created)
    ensures WellFormed(db) ==> WellFormed(r.0)
  {
    match req
    case SearchRequest(f) => (db, SearchReply(Index(db, f, conv, number)))
    case CreateRequest(body) =>
      var (db', reply) := Create(db, body, conv, engine);
      CreatePreservesWellFormed(db, body, conv, engine);
      (db', CreateReply(reply))
  }

  /** Only successful registrations change the store, so a store that
      starts well formed stays well formed across any sequence of requests. */
  function Replay(db: Db, reqs: seq<Request>, conv: string -> Option<int>, number: string -> Option<real>,
                  engine: (Db, Write) -> bool): (r: Db)
    ensures WellFormed(db) ==> WellFormed(r)
    ensures |r.users| == |db.users| + CountCreated(db, reqs, conv, number, engine)
    decreases |reqs|
  {
    if |reqs| == 0 then db
    else Replay(Serve(db, reqs[0], conv, number, engine).0, reqs[1..], conv, number, engine)
  }

  /** How many of the requests, replayed from `db`, are successful creates. */
  function CountCreated(db: Db, reqs: seq<Request>, conv: string -> Option<int>, number: string -> Option<real>,
                        engine: (Db, Write) -> bool): (n: nat)
    ensures n <= |reqs|
    decreases |reqs|
  {
    if |reqs| == 0 then 0
    else
      var (db', resp) := Serve(db, reqs[0], conv, number, engine);
      (if resp == CreateReply(Created) then 1 else 0) + CountCreated(db', reqs[1..], conv, number, engine)
  }
}

=== FILE: coherence.dfy ===
/** How registration and search fit together: a successful registration
    keeps the store well formed, and searching afterwards finds exactly what
    was found before plus the new class wherever one of its schedule items
    covers the instant. Both handlers use the same minute converter, which
    is what makes this hold. */
module Coherence {
  import opened Wrappers
  import opened Store
  import opened Search
  import opened Registration

  /** The item's [from, to) slot on its weekday, converted to minutes,
      contains minute `t` of weekday `weekDay`. */
  predicate ItemCovers(item: ScheduleItem, conv: string -> Option<int>, weekDay: real, t: int) {
    && item.weekDay as real == weekDay
    && conv(item.from).Some? && conv(item.to).Some?
    && conv(item.from).value <= t < conv(item.to).value
  }

  lemma AppendOne<T>(s: seq<T>, s': seq<T>)
    requires |s'| == |s| + 1 && s'[..|s|] == s
    ensures s' == s + [s'[|s|]]
  {
  }

  lemma AppendMany<T>(s: seq<T>, s': seq<T>)
    requires |s| <= |s'| && s'[..|s|] == s
    ensures s' == s + s'[|s|..]
  {
  }

  lemma FreshNotIn<T>(rows: seq<T>, key: T -> int, id: int, x: T)
    requires FreshKey(rows, key, id) && x in rows
    ensures key(x) != id
  {
    var i :| 0 <= i < |rows| && rows[i] == x;
  }

  /** Appending rows whose keys are unique among themselves and fresh in
      the table keeps the table's keys unique. */
  lemma UniqueAppend<T>(rows: seq<T>, extra: seq<T>, key: T -> int)
    requires UniqueKeys(rows, key) && UniqueKeys(extra, key)
    requires forall k :: 0 <= k < |extra| ==> FreshKey(rows, key, key(extra[k]))
    ensures UniqueKeys(rows + extra, key)
  {
    var s := rows + extra;
    var n := |rows|;
    forall i, j | 0 <= i < j < |s| ensures key(s[i]) != key(s[j]) {
      if j < n {
        assert s[i] == rows[i] && s[j] == rows[j];
      } else if i < n {
        assert s[i] == rows[i] && s[j] == extra[j - n];
        assert FreshKey(rows, key, key(extra[j - n]));
      } else {
        assert s[i] == extra[i - n] && s[j] == extra[j - n];
      }
    }
  }

  /** A registration keeps primary keys unique and every reference resolved. */
  lemma RegisteredPreservesWellFormed(db: Db, db': Db, reg: Body, conv: string -> Option<int>)
    requires WellFormed(db)
    requires Registered(db, db', reg, conv)
    ensures WellFormed(db')
  {
    var u := db'.users[|db.users|];
    var c := db'.classes[|db.classes|];
    var rows := db'.schedule[|db.schedule|..];
    AppendOne(db.users, db'.users);
    AppendOne(db.classes, db'.classes);
    AppendMany(db.schedule, db'.schedule);
    UniqueAppend(db.users, [u], UserKey);
    UniqueAppend(db.classes, [c], ClassKey);
    UniqueAppend(db.schedule, rows, RowKey);
    forall k | k in db'.classes ensures exists v :: v in db'.users && v.id == k.userId {
      if k == c {
        assert u in db'.users;
      } else {
        assert k in db.classes;
        var v :| v in db.users && v.id == k.userId;
        assert v in db'.users;
      }
    }
    forall row | row in db'.schedule ensures exists k :: k in db'.classes && k.id == row.classId {
      if row in db.schedule {
        var k :| k in db.classes && k.id == row.classId;
        assert k in db'.classes;
      } else {
        var m :| 0 <= m < |rows| && rows[m] == row;
        assert RowFor(rows[m], reg.schedule[m], c.id, conv);
        assert c in db'.classes;
      }
    }
  }

  /** A successful create leaves a well-formed store well formed. */
  lemma CreatePreservesWellFormed(db: Db, reg: Body, conv: string -> Option<int>, engine: (Db, Write) -> bool)
    ensures WellFormed(db) ==> WellFormed(Create(db, reg, conv, engine).0)
  {
    var r := Create(db, reg, conv, engine);
    if WellFormed(db) && r.1 == Created {
      RegisteredPreservesWellFormed(db, r.0, reg, conv);
    }
  }

  /** An old class qualifies after the registration exactly when it did
      before: the new schedule rows all belong to the new class. */
  lemma OldClassQualifies(db: Db, db': Db, reg: Body, conv: string -> Option<int>,
                          k: Class, subject: string, weekDay: real, t: int)
    requires Registered(db, db', reg, conv)
    requires k in db.classes
    ensures Qualifies(db', k, subject, weekDay, t) <==> Qualifies(db, k, subject, weekDay, t)
  {
  }

  /** The new class qualifies exactly when it has the subject asked for and
      one of the registered schedule items covers the instant. */
  lemma NewClassQualifies(db: Db, db': Db, reg: Body, conv: string -> Option<int>,
                          subject: string, weekDay: real, t: int)
    requires WellFormed(db)
    requires Registered(db, db', reg, conv)
    ensures Qualifies(db', db'.classes[|db.classes|], subject, weekDay, t) <==>
      reg.subject == subject && exists i :: 0 <= i < |reg.schedule| && ItemCovers(reg.schedule[i], conv, weekDay, t)
  {
    var c := db'.classes[|db.classes|];
    var rows := db'.schedule[|db.schedule|..];
    AppendMany(db.schedule, db'.schedule);
    forall r | r in db.schedule ensures r.classId != c.id {
      var k :| k in db.classes && k.id == r.classId;
      FreshNotIn(db.classes, ClassKey, c.id, k);
    }
    if Qualifies(db', c, subject, weekDay, t) {
      var r :| r in db'.schedule && Covers(r, c.id, weekDay, t);
      assert r !in db.schedule;
      var m :| 0 <= m < |rows| && rows[m] == r;
      assert RowFor(rows[m], reg.schedule[m], c.id, conv);
      assert ItemCovers(reg.schedule[m], conv, weekDay, t);
    }
    if reg.subject == subject && exists i :: 0 <= i < |reg.schedule| && ItemCovers(reg.schedule[i], conv, weekDay, t) {
      var i :| 0 <= i < |reg.schedule| && ItemCovers(reg.schedule[i], conv, weekDay, t);
      assert RowFor(rows[i], reg.schedule[i], c.id, conv);
      assert rows[i] in db'.schedule;
      assert Covers(rows[i], c.id, weekDay, t);
    }
  }

  /** Register, then search: the listings found afterwards are the ones found
      before, plus the new class paired with the new user exactly when the
      subject matches and one of the registered items, converted with the
      same converter, covers the instant. */
  lemma SearchAfterRegistration(db: Db, db': Db, reg: Body, conv: string -> Option<int>,
                                subject: string, weekDay: real, t: int)
    requires WellFormed(db)
    requires Registered(db, db', reg, conv)
    ensures forall l :: l in Found(db', subject, weekDay, t) <==>
      || l in Found(db, subject, weekDay, t)
      || (&& l == Listing(db'.classes[|db.classes|], db'.users[|db.users|])
          && reg.subject == subject
          && exists i :: 0 <= i < |reg.schedule| && ItemCovers(reg.schedule[i], conv, weekDay, t))
  {
    var u := db'.users[|db.users|];
    var c := db'.classes[|db.classes|];
    AppendOne(db.users, db'.users);
    AppendOne(db.classes, db'.classes);
    NewClassQualifies(db, db', reg, conv, subject, weekDay, t);
    forall k | k in db.classes ensures k != c && k.userId != u.id {
      FreshNotIn(db.classes, ClassKey, c.id, k);
      var v :| v in db.users && v.id == k.userId;
      FreshNotIn(db.users, UserKey, u.id, v);
    }
    forall v | v in db.users ensures v.id != u.id {
      FreshNotIn(db.users, UserKey, u.id, v);
    }
    forall l ensures l in Found(db', subject, weekDay, t) <==>
      || l in Found(db, subject, weekDay, t)
      || (&& l == Listing(c, u)
          && reg.subject == subject
          && exists i :: 0 <= i < |reg.schedule| && ItemCovers(reg.schedule[i], conv, weekDay, t))
    {
      if l.cls in db.classes {
        OldClassQualifies(db, db', reg, conv, l.cls, subject, weekDay, t);
      }
    }
  }

  /** The same through the create handler: after a successful create, a
      search whose filters convert to (weekDay, t) finds the new class with
      its tutor exactly when the subject matches and some schedule item
      covers t on that weekday; everything found before is still found. */
  lemma CreateThenSearch(db: Db, reg: Body, conv: string -> Option<int>, engine: (Db, Write) -> bool,
                         f: Filters, number: string -> Option<real>)
    requires WellFormed(db)
    requires Create(db, reg, conv, engine).1 == Created
    requires !Missing(f.weekDay) && !Missing(f.subject) && !Missing(f.time)
    requires number(f.weekDay.value).Some? && conv(f.time.value).Some?
    ensures var db' := Create(db, reg, conv, engine).0;
      var w := number(f.weekDay.value).value;
      var t := conv(f.time.value).value;
      && Index(db', f, conv, number).Success?
      && (Listing(db'.classes[|db.classes|], db'.users[|db.users|]) in Index(db', f, conv, number).value <==>
            reg.subject == f.subject.value
            && exists i :: 0 <= i < |reg.schedule| && ItemCovers(reg.schedule[i], conv, w, t))
      && forall l :: l in Index(db, f, conv, number).value ==> l in Index(db', f, conv, number).value
  {
    var db' := Create(db, reg, conv, engine).0;
    SearchAfterRegistration(db, db', reg, conv, f.subject.value,
                            number(f.weekDay.value).value, conv(f.time.value).value);
    var u := db'.users[|db.users|];
    var c := db'.classes[|db.classes|];
    AppendOne(db.classes, db'.classes);
    forall k | k in db.classes ensures k != c {
      FreshNotIn(db.classes, ClassKey, c.id, k);
    }
  }
}

=== FILE: registration.dfy ===
/** `ClassesController.create`: registration of a tutor. Inside one
    transaction the handler inserts a user, a class owned by that user and
    one schedule row per schedule item, then commits; on any failure it
    rolls back and replies with one fixed error. */
module Registration {
  import opened Wrappers
  import opened Store

  /** One entry of the request's `schedule`: a weekday and two "HH:MM" times. */
  datatype ScheduleItem = ScheduleItem(weekDay: int, from: string, to: string)

  /** The request body of a registration. */
  datatype Body = Body(
    name: string, avatar: string, whatsapp: string, bio: string,
    subject: string, cost: real,
    schedule: seq<ScheduleItem>)

  /** One request the transaction makes of the storage engine: an insert
      into one of the tables, or the final commit. */
  datatype Write =
    | InsertUser(user: User)
    | InsertClass(cls: Class)
    | InsertSchedule(rows: seq<ScheduleRow>)
    | Commit

  /** The step of the transaction that failed; the caller never sees it. */
  datatype Fault = UserRejected | ClassRejected | TimeNotConverted | ScheduleRejected | CommitFailed

  /** The reply: status 201, or status 400 with the single
      "unexpected error" message whatever the cause. */
  datatype Reply = Created | RegistrationFailed

  /** The schedule row the item becomes once both its times convert. */
  predicate RowFor(row: ScheduleRow, item: ScheduleItem, classId: int, conv: string -> Option<int>) {
    && row.classId == classId
    && row.weekDay == item.weekDay
    && conv(item.from) == Some(row.from)
    && conv(item.to) == Some(row.to)
  }

  /** Every time of every item converts to minutes. */
  predicate AllConvert(items: seq<ScheduleItem>, conv: string -> Option<int>) {
    forall i :: 0 <= i < |items| ==> conv(items[i].from).Some? && conv(items[i].to).Some?
  }

  /** The `schedule.map` of the handler: the i-th item becomes the i-th row,
      owned by the new class, with consecutive fresh ids from `firstId`.
      None when some time does not convert. */
  function ToRows(items: seq<ScheduleItem>, classId: int, firstId: int, conv: string -> Option<int>)
    : (r: Option<seq<ScheduleRow>>)
    ensures r.Some? <==> AllConvert(items, conv)
    ensures r.Some? ==>
      && |r.value| == |items|
      && forall i :: 0 <= i < |items| ==> RowFor(r.value[i], items[i], classId, conv) && r.value[i].id == firstId + i
  {
    if |items| == 0 then Some([])
    else
      var item := items[0];
      var rest := ToRows(items[1..], classId, firstId + 1, conv);
      if conv(item.from).None? || conv(item.to).None? then None
      else if rest.None? then
        assert !AllConvert(items, conv) by {
          var k :| 0 <= k < |items[1..]| && !(conv(items[1..][k].from).Some? && conv(items[1..][k].to).Some?);
          assert items[1..][k] == items[k + 1];
        }
        None
      else
        assert forall i :: 1 <= i < |items| ==> items[1..][i - 1] == items[i];
        Some([ScheduleRow(firstId, classId, item.weekDay, conv(item.from).value, conv(item.to).value)] + rest.value)
  }

  /** The body of the `try` block, run against the transaction's working
      copy `trx`. `engine` is the storage engine's verdict on each insert
      and on the commit, given the working copy so far (a constraint it
      enforces, an I/O error). The result is the committed working copy, or
      the failed step. */
  function Transact(trx: Db, reg: Body, conv: string -> Option<int>, engine: (Db, Write) -> bool)
    : (r: Result<Db, Fault>)
    ensures !AllConvert(reg.schedule, conv) ==> r.Failure?
    ensures r.Success? ==> Registered(trx, r.value, reg, conv) && EngineAccepted(trx, r.value, engine)
  {
    var user := User(NextId(trx.users, UserKey), reg.name, reg.avatar, reg.whatsapp, reg.bio);
    if !engine(trx, InsertUser(user)) then Failure(UserRejected)
    else
      var trx1 := trx.(users := trx.users + [user]);
      var cls := Class(NextId(trx1.classes, ClassKey), reg.subject, reg.cost, user.id);
      if !engine(trx1, InsertClass(cls)) then Failure(ClassRejected)
      else
        var trx2 := trx1.(classes := trx1.classes + [cls]);
        match ToRows(reg.schedule, cls.id, NextId(trx2.schedule, RowKey), conv)
        case None => Failure(TimeNotConverted)
        case Some(rows) =>
          if !engine(trx2, InsertSchedule(rows)) then Failure(ScheduleRejected)
          else
            var trx3 := trx2.(schedule := trx2.schedule + rows);
            if !engine(trx3, Commit) then Failure(CommitFailed)
            else Success(trx3)
  }

  /** The store after a successful registration: exactly one new user with
      the given profile, exactly one new class of the given subject and cost
      owned by that user, and one new schedule row per item, in order,
      owned by that class; every new id is fresh and every old row is kept
      unchanged and in place. */
  ghost predicate Registered(db: Db, db': Db, reg: Body, conv: string -> Option<int>) {
    && |db'.users| == |db.users| + 1
    && db'.users[..|db.users|] == db.users
    && |db'.classes| == |db.classes| + 1
    && db'.classes[..|db.classes|] == db.classes
    && |db'.schedule| == |db.schedule| + |reg.schedule|
    && db'.schedule[..|db.schedule|] == db.schedule
    && var u := db'.users[|db.users|];
       var c := db'.classes[|db.classes|];
       var rows := db'.schedule[|db.schedule|..];
       && u == User(u.id, reg.name, reg.avatar, reg.whatsapp, reg.bio)
       && FreshKey(db.users, UserKey, u.id)
       && c == Class(c.id, reg.subject, reg.cost, u.id)
       && FreshKey(db.classes, ClassKey, c.id)
       && (forall i :: 0 <= i < |reg.schedule| ==>
             RowFor(rows[i], reg.schedule[i], c.id, conv) && FreshKey(db.schedule, RowKey, rows[i].id))
       && UniqueKeys(rows, RowKey)
  }

  /** Each of the three inserts that turned `db` into `db'`, and the commit,
      was accepted by the engine, as seen against the working copy at that
      point: the user against `db`, the class once the user was added, the
      schedule rows once the class was added, the commit against `db'`. */
  ghost predicate EngineAccepted(db: Db, db': Db, engine: (Db, Write) -> bool)
    requires |db.users| < |db'.users| && |db.classes| < |db'.classes| && |db.schedule| <= |db'.schedule|
  {
    var trx1 := db.(users := db'.users);
    var trx2 := trx1.(classes := db'.classes);
    && engine(db, InsertUser(db'.users[|db.users|]))
    && engine(trx1, InsertClass(db'.classes[|db.classes|]))
    && engine(trx2, InsertSchedule(db'.schedule[|db.schedule|..]))
    && engine(db', Commit)
  }

  /** The create handler: the store it leaves behind and its reply. On
      commit the working copy becomes the store; on rollback the store is
      the one the request found. */
  function Create(db: Db, reg: Body, conv: string -> Option<int>, engine: (Db, Write) -> bool)
    : (r: (Db, Reply))
    ensures r.1 == RegistrationFailed ==> r.0 == db
    ensures !AllConvert(reg.schedule, conv) ==> r.1 == RegistrationFailed
    ensures AllConvert(reg.schedule, conv) && WritesAccepted(db, reg, conv, engine) ==> r.1 == Created
    ensures r.1 == Created ==> Registered(db, r.0, reg, conv) && EngineAccepted(db, r.0, engine)
  {
    match Transact(db, reg, conv, engine)
    case Success(trx) => (trx, Created)
    case Failure(_) =>
      AcceptedWritesCommit(db, reg, conv, engine);
      (db, RegistrationFailed)
  }

  /** The engine accepts the writes and the commit of every store a
      successful registration of `reg` could leave behind, whatever ids it
      picks. */
  ghost predicate WritesAccepted(db: Db, reg: Body, conv: string -> Option<int>, engine: (Db, Write) -> bool) {
    forall db' :: Registered(db, db', reg, conv) ==> EngineAccepted(db, db', engine)
  }

  /** When every time converts and the engine accepts the registration's own
      writes and commit, the transaction reaches the commit. */
  lemma AcceptedWritesCommit(db: Db, reg: Body, conv: string -> Option<int>, engine: (Db, Write) -> bool)
    ensures AllConvert(reg.schedule, conv) && WritesAccepted(db, reg, conv, engine) ==>
      Transact(db, reg, conv, engine).Success?
  {
    if AllConvert(reg.schedule, conv) && WritesAccepted(db, reg, conv, engine) {
      var all := (d: Db, w: Write) => true;
      var built := Transact(db, reg, conv, all);
      assert built.Success?;
      assert EngineAccepted(db, built.value, engine);
    }
  }
}

=== FILE: search.dfy ===
/** `ClassesController.index`: the class search. Three query filters pass a
    presence gate; the classes of the requested subject that own a schedule
    slot covering the requested weekday and minute are then joined with
    their owning users. */
module Search {
  import opened Wrappers
  import opened Store

  /** The query string of a search request. Every value arrives as a string
      (the web client sends the weekday as '0'..'6'), or not at all. */
  datatype Filters = Filters(weekDay: Option<string>, subject: Option<string>, time: Option<string>)

  /** One result row: a qualifying class paired with its owning user. */
  datatype Listing = Listing(cls: Class, owner: User)

  datatype SearchError =
    | MissingFilters   // a filter is absent or empty: 400 "Missing filters to search classes"
    | QueryFailed      // a filter did not convert to a number, so the query itself fails

  /** JavaScript falsiness of a query-string value: only an absent or empty
      string is missing, so "0" is present. */
  predicate Missing(p: Option<string>) {
    p.None? || p.value == ""
  }

  /** The schedule row belongs to class `classId` and its half-open slot
      [from, to) on `weekDay` contains minute `t`. */
  predicate Covers(row: ScheduleRow, classId: int, weekDay: real, t: int) {
    && row.classId == classId
    && row.weekDay as real == weekDay
    && row.from <= t
    && t < row.to
  }

  /** Reference meaning of the semi-join: the class has the subject asked
      for and at least one of its schedule rows covers the instant. */
  ghost predicate Qualifies(db: Db, c: Class, subject: string, weekDay: real, t: int) {
    && c.subject == subject
    && exists r :: r in db.schedule && Covers(r, c.id, weekDay, t)
  }

  /** The existence subquery, scanning the schedule table. */
  function AnySlot(rows: seq<ScheduleRow>, classId: int, weekDay: real, t: int): (b: bool)
    ensures b <==> exists r :: r in rows && Covers(r, classId, weekDay, t)
  {
    if |rows| == 0 then false
    else Covers(rows[0], classId, weekDay, t) || AnySlot(rows[1..], classId, weekDay, t)
  }

  /** The inner join of one class with the users table. */
  function Owners(c: Class, users: seq<User>): (r: seq<Listing>)
    ensures forall l :: l in r <==> l.cls == c && l.owner in users && l.owner.id == c.userId
  {
    if |users| == 0 then []
    else
      var rest := Owners(c, users[1..]);
      if users[0].id == c.userId then [Listing(c, users[0])] + rest else rest
  }

  /** The query over a prefix of the classes table. */
  function Join(cs: seq<Class>, db: Db, subject: string, weekDay: real, t: int): (r: seq<Listing>)
    ensures forall l :: l in r <==>
      && l.cls in cs
      && l.owner in db.users
      && l.owner.id == l.cls.userId
      && Qualifies(db, l.cls, subject, weekDay, t)
  {
    if |cs| == 0 then []
    else
      var rest := Join(cs[1..], db, subject, weekDay, t);
      if cs[0].subject == subject && AnySlot(db.schedule, cs[0].id, weekDay, t)
      then Owners(cs[0], db.users) + rest
      else rest
  }

  /** The rows the search query returns for an instant on a weekday, in
      the order of the classes table. */
  function Found(db: Db, subject: string, weekDay: real, t: int): (r: seq<Listing>)
    ensures forall l :: l in r <==>
      && l.cls in db.classes
      && l.owner in db.users
      && l.owner.id == l.cls.userId
      && Qualifies(db, l.cls, subject, weekDay, t)
  {
    Join(db.classes, db, subject, weekDay, t)
  }

  /** The search handler. `conv` stands for `convertHourToMinutes`, `number`
      for JavaScript's `Number` (None for NaN or an infinity). */
  function Index(db: Db, f: Filters, conv: string -> Option<int>, number: string -> Option<real>)
    : (r: Result<seq<Listing>, SearchError>)
    ensures r == Failure(MissingFilters) <==> Missing(f.weekDay) || Missing(f.subject) || Missing(f.time)
    ensures r == Failure(QueryFailed) <==>
      && !Missing(f.weekDay) && !Missing(f.subject) && !Missing(f.time)
      && (number(f.weekDay.value).None? || conv(f.time.value).None?)
    ensures r.Success? ==>
      && f.weekDay.Some? && f.subject.Some? && f.time.Some?
      && number(f.weekDay.value).Some? && conv(f.time.value).Some?
      && forall l :: l in r.value <==>
        && l.cls in db.classes
        && l.owner in db.users
        && l.owner.id == l.cls.userId
        && Qualifies(db, l.cls, f.subject.value, number(f.weekDay.value).value, conv(f.time.value).value)
  {
    if Missing(f.weekDay) || Missing(f.subject) || Missing(f.time) then Failure(MissingFilters)
    else
      match (number(f.weekDay.value), conv(f.time.value))
      case (Some(w), Some(t)) => Success(Found(db, f.subject.value, w, t))
      case _ => Failure(QueryFailed)
  }

  /** A rejected request performs no query: its reply depends neither on the
      store nor on the converters. */
  lemma GateSkipsQuery(db1: Db, db2: Db, f: Filters,
                       conv1: string -> Option<int>, conv2: string -> Option<int>,
                       number1: string -> Option<real>, number2: string -> Option<real>)
    requires Missing(f.weekDay) || Missing(f.subject) || Missing(f.time)
    ensures Index(db1, f, conv1, number1) == Index(db2, f, conv2, number2) == Failure(MissingFilters)
  {
  }

  /** The slot's start minute is inside it. */
  lemma StartMatches(db: Db, c: Class, u: User, row: ScheduleRow)
    requires c in db.classes && u in db.users && u.id == c.userId
    requires row in db.schedule && row.classId == c.id && row.from < row.to
    ensures Listing(c, u) in Found(db, c.subject, row.weekDay as real, row.from)
  {
  }

  /** The slot's end minute is outside it: a class whose only slot on that
      weekday is `row` is not found at `row.to`. */
  lemma EndExcluded(db: Db, c: Class, u: User, row: ScheduleRow)
    requires row in db.schedule && row.classId == c.id
    requires forall r :: r in db.schedule && r.classId == c.id && r.weekDay == row.weekDay ==> r == row
    ensures Listing(c, u) !in Found(db, c.subject, row.weekDay as real, row.to)
  {
  }

  /** No two elements of `s` are equal. */
  predicate Distinct<T(==)>(s: seq<T>) {
    forall i, j :: 0 <= i < j < |s| ==> s[i] != s[j]
  }

  /** A class whose owner id is carried by no user has no owner rows. */
  lemma OwnersOfUnknownUser(c: Class, users: seq<User>)
    requires FreshKey(users, UserKey, c.userId)
    ensures Owners(c, users) == []
  {
  }

  lemma {:induction false} OwnersAtMostOne(c: Class, users: seq<User>)
    requires UniqueKeys(users, UserKey)
    ensures |Owners(c, users)| <= 1
    decreases |users|
  {
    if |users| > 0 {
      var tail := users[1..];
      assert UniqueKeys(tail, UserKey) by {
        forall i, j | 0 <= i < j < |tail|
          ensures UserKey(tail[i]) != UserKey(tail[j])
        {
          assert tail[i] == users[i + 1] && tail[j] == users[j + 1];
        }
      }
      OwnersAtMostOne(c, tail);
      if users[0].id == c.userId {
        assert FreshKey(tail, UserKey, c.userId) by {
          forall k | 0 <= k < |tail| ensures UserKey(tail[k]) != c.userId {
            assert tail[k] == users[k + 1];
            assert UserKey(users[0]) != UserKey(users[k + 1]);
          }
        }
        OwnersOfUnknownUser(c, tail);
      }
    }
  }

  lemma {:induction false} JoinDistinct(cs: seq<Class>, db: Db, subject: string, weekDay: real, t: int)
    requires UniqueKeys(db.users, UserKey)
    requires UniqueKeys(cs, ClassKey)
    ensures Distinct(Join(cs, db, subject, weekDay, t))
    decreases |cs|
  {
    if |cs| > 0 {
      var tail := cs[1..];
      assert UniqueKeys(tail, ClassKey) by {
        forall i, j | 0 <= i < j < |tail|
          ensures ClassKey(tail[i]) != ClassKey(tail[j])
        {
          assert tail[i] == cs[i + 1] && tail[j] == cs[j + 1];
        }
      }
      JoinDistinct(tail, db, subject, weekDay, t);
      var rest := Join(tail, db, subject, weekDay, t);
      if cs[0].subject == subject && AnySlot(db.schedule, cs[0].id, weekDay, t) {
        var head := Owners(cs[0], db.users);
        OwnersAtMostOne(cs[0], db.users);
        assert cs[0] !in tail by {
          forall k | 0 <= k < |tail| ensures tail[k] != cs[0] {
            assert tail[k] == cs[k + 1];
            assert ClassKey(cs[0]) != ClassKey(cs[k + 1]);
          }
        }
        var s := head + rest;
        forall i, j | 0 <= i < j < |s| ensures s[i] != s[j] {
          if j < |head| {
            assert false;
          } else if i < |head| {
            assert s[i] in head && s[j] in rest;
            assert s[i].cls == cs[0];
            assert s[j].cls in tail;
          } else {
            assert s[i] == rest[i - |head|] && s[j] == rest[j - |head|];
          }
        }
      }
    }
  }

  /** With unique user and class ids every class is listed at most once,
      however many of its slots match: the schedule is a semi-join. */
  lemma FoundDistinct(db: Db, subject: string, weekDay: real, t: int)
    requires UniqueKeys(db.users, UserKey) && UniqueKeys(db.classes, ClassKey)
    ensures Distinct(Found(db, subject, weekDay, t))
  {
    JoinDistinct(db.classes, db, subject, weekDay, t);
  }
}

=== FILE: store.dfy ===
/** The in-memory store behind the classes controller: the `users`,
    `classes` and `class_schedule` tables, each an ordered sequence of rows. */
module Store {

  /** A row of `users`: a tutor's profile. */
  datatype User = User(id: int, name: string, avatar: string, whatsapp: string, bio: string)

  /** A row of `classes`: a subject taught by the user `userId` at an hourly `cost`. */
  datatype Class = Class(id: int, subject: string, cost: real, userId: int)

  /** A row of `class_schedule`: one weekly slot of the class `classId`, on
      `weekDay`, covering the minutes of the day from `from` up to (but not
      including) `to`. */
  datatype ScheduleRow = ScheduleRow(id: int, classId: int, weekDay: int, from: int, to: int)

  /** The three tables. */
  datatype Db = Db(users: seq<User>, classes: seq<Class>, schedule: seq<ScheduleRow>)

  function UserKey(u: User): int { u.id }
  function ClassKey(c: Class): int { c.id }
  function RowKey(r: ScheduleRow): int { r.id }

  /** No row of `rows` carries the key `id`. */
  predicate FreshKey<T>(rows: seq<T>, key: T -> int, id: int) {
    forall i :: 0 <= i < |rows| ==> key(rows[i]) != id
  }

  /** No two rows of `rows` share a key. */
  predicate UniqueKeys<T>(rows: seq<T>, key: T -> int) {
    forall i, j :: 0 <= i < j < |rows| ==> key(rows[i]) != key(rows[j])
  }

  /** The id the table hands to the next inserted row: 1 for an empty
      table, otherwise one above the largest id present. */
  function NextId<T>(rows: seq<T>, key: T -> int): (r: int)
    ensures forall i :: 0 <= i < |rows| ==> key(rows[i]) < r
    ensures 1 <= r
  {
    if |rows| == 0 then 1
    else
      var prior := NextId(rows[..|rows| - 1], key);
      var last := key(rows[|rows| - 1]);
      if last < prior then prior else last + 1
  }

  /** Primary keys are unique in every table, every class belongs to a
      stored user and every schedule row to a stored class. */
  ghost predicate WellFormed(db: Db) {
    && UniqueKeys(db.users, UserKey)
    && UniqueKeys(db.classes, ClassKey)
    && UniqueKeys(db.schedule, RowKey)
    && (forall c :: c in db.classes ==> exists u :: u in db.users && u.id == c.userId)
    && (forall r :: r in db.schedule ==> exists c :: c in db.classes && c.id == r.classId)
  }
}

=== FILE: wrappers.dfy ===
/** Failure-compatible wrappers used by the search and registration models. */
module Wrappers {

  /** A value that may be absent: an unset query parameter, a time string
      that does not convert to a number. */
  datatype Option<+T> = None | Some(value: T)

  /** The outcome of an operation that either produces a value or fails
      with an error. */
  datatype Result<+R, +E> = Success(value: R) | Failure(error: E)
}
